=== FILE: README.md ===
# PrintScript snippet service — verified model

This project models the core of a small Spring service that runs PrintScript snippets held in a
remote asset store. The service fetches a snippet's bytes and hands them to the PrintScript
toolchain to validate, execute, lint or format. It then turns the toolchain's outcome, or any `Exception`,
into a stable result. Alongside the service sit two small providers meant for
scripted test runs. The first is an input supplier that hands out a fixed list of strings in
order. The second is an output sink that records every emitted message.

Modules, one per source file or concern:

- `Exceptions` (`exceptions.dfy`): `Option` stands for Kotlin's nullable types. `Attempt`
  stands for a call that either returns a value or throws an exception whose `message` may be
  null. `Then` sequences two statements of one `try` block.
- `RunnerInput` (`runner_input_prov.dfy`): the class `RunnerInputProv`, with a cursor `index`
  over a constant list `inputs`. A ghost `history` records every result in call order. Pure
  functions `Step`, `CursorAfter` and `ReadsOf` describe one call and any number of calls.
- `RunnerOutput` (`runner_output_prov.dfy`): the class `RunnerOutPutProv`, whose `outPuts`
  sequence is appended to in place. `AfterOutputs` describes a run of `output` calls.
- `Asset` (`asset_service.dfy`): the asset store as a map from snippet id to bytes, with the
  get and put the service uses.
- `Service` (`print_script_service.dfy`): validate, execute and lint are functions over the
  store's response and the toolchain's outcome. Format is a method on `PrintScriptService`
  that changes the store.

The toolchain is not modelled. Its validator, interpreter, analyser and formatter are function
parameters that return an `Attempt`, so every property holds for every toolchain. The store's
answer to `getSnippet` is a parameter of validate, execute and lint (`Attempt<Option<Bytes>>`).
That covers the real store, which absorbs every failure into a response without a body. It
also covers a store that throws, as the service's tests mock it.

Notes on the code's behaviour:

- Execute returns a result with both fields empty in the three cases below, and validate in the last two:
  - the interpreter's result is of an unknown kind (`PrintScriptService.kt:60-62`);
  - the store returns no body (the snippet is missing or empty, or the GET failed): `body!!` raises a `NullPointerException` with no message, and
    the catch blocks copy that null message into `error` (`PrintScriptService.kt:37,66,98`);
  - any other exception without a message.

  `ExecuteFieldsCharacterised` and `MissingSnippetReportsNothing` state this.
- The tests call `executeSnippetTest`, `genConfig` and `toJsonFile`, which no main code
  defines, so the model has no scripted test run, configuration translation or JSON
  conversion. The two providers are modelled on their own, because the service does not use
  them: `executeSnippet` builds the toolchain's default providers.
- Lint and format always hand version `"1.1"` to the toolchain (`PinnedVersion`). Validate and
  execute pass on the caller's version.
- Every catch in the service is `catch (e: Exception)`. "Exception" below means a
  `java.lang.Exception`; a `java.lang.Error` is not caught (see "Left out").

## Model

| member | source | states |
|---|---|---|
| `RunnerInput.RunnerInputProv.constructor` | src/main/kotlin/app/utils/RunnerInputProv.kt:5-9 | A new provider keeps the given list and starts with its cursor at 0 and no reads. |
| `RunnerInput.RunnerInputProv.ReadInput` | src/main/kotlin/app/utils/RunnerInputProv.kt:11-15 | Below the end it returns `inputs[index]` and moves the cursor by exactly one. At the end it returns the out-of-bounds failure and leaves the cursor alone. `name` plays no part. The invariant `0 <= index <= length of inputs` is kept, and the k-th call so far returned `inputs[k]`. |
| `RunnerInput.ReadsOf` | src/main/kotlin/app/utils/RunnerInputProv.kt:9-15 | Successive calls on a fresh provider give exactly one result per call. |
| `RunnerInput.CursorBounded` | src/main/kotlin/app/utils/RunnerInputProv.kt:9-13 | After n calls the cursor is the smaller of n and the length of `inputs`: each successful call adds one, and the cursor never passes the end. |
| `RunnerInput.ReadsInOrder` | src/main/kotlin/app/utils/RunnerInputProv.kt:11-15 | On a fresh provider the k-th call returns `inputs[k]`, with no reordering or skipping. Every call past the end fails at the index equal to the length of `inputs`. |
| `RunnerInput.TwoScriptedInputs` | src/main/kotlin/app/utils/RunnerInputProv.kt:5-15 | Over `["a", "b"]` the first read gets "a", the second "b", and the third fails at index 2. |
| `RunnerOutput.RunnerOutPutProv.constructor` | src/main/kotlin/app/utils/RunnerOutPutProv.kt:5-6 | A new sink starts with an empty `outPuts`. |
| `RunnerOutput.RunnerOutPutProv.Output` | src/main/kotlin/app/utils/RunnerOutPutProv.kt:8-10 | `outPuts` becomes the old list with the message appended. It grows by exactly one, and the earlier entries are unchanged. |
| `RunnerOutput.OutputsKeptInOrder` | src/main/kotlin/app/utils/RunnerOutPutProv.kt:6-10 | After any run of `output` calls the sink holds its earlier entries followed by the messages in emission order, duplicates kept. |
| `RunnerOutput.OutputAll` | src/main/kotlin/app/utils/RunnerOutPutProv.kt:6-10 | Emitting any sequence of messages through successive `output` calls on one sink leaves it holding its earlier entries followed by the messages in emission order. |
| `Asset.GetAfterSave` | src/main/kotlin/app/asset/AssetService.kt:26-67 | After a delivered save of non-empty bytes, a successful GET for that id answers exactly those bytes. After saving empty bytes the id reads back as no body. Every other id reads exactly as before the save. |
| `Asset.AssetService.SaveSnippet` | src/main/kotlin/app/asset/AssetService.kt:26-43 | Every call is recorded as an upload of the bytes under the id. A delivered upload replaces the bytes under the id. A failed upload does not raise. It leaves the map unchanged and is answered as not delivered (the source's status 500). |
| `Service.FetchMultipartFile` | src/main/kotlin/app/service/PrintScriptService.kt:96-99 | Returns the body exactly when the response has one. It re-raises the store's exception unchanged. A missing body raises an exception without a message. |
| `Service.ValidateSnippet` | src/main/kotlin/app/service/PrintScriptService.kt:30-39 | The tree and the error are never both set. If fetch and validate both return, the result is `(tree, null)`. Any exception from either becomes `(null, e.message)` and no `Exception` propagates. A missing body gives `(null, null)`. |
| `Service.ExecuteSnippet` | src/main/kotlin/app/service/PrintScriptService.kt:41-68 | A success gives `(toString(value), null)`, a failure `(null, errorMessage)`, and an unknown result `(null, null)`. Any exception from fetch or run becomes `(null, e.message)`. Output and error are never both set. |
| `Service.ExecuteFieldsCharacterised` | src/main/kotlin/app/service/PrintScriptService.kt:53-67 | Output is set exactly when the interpreter succeeded. Error is set exactly when it failed or an exception carried a message. Neither is set exactly for an unknown result or an exception without a message. |
| `Service.LintSnippet` | src/main/kotlin/app/service/PrintScriptService.kt:70-80 | Never raises an `Exception`. If either fetch fails, or analysis raises, the result is empty. Otherwise it is exactly the analyser's diagnostics for version "1.1". |
| `Service.FormatUpload` | src/main/kotlin/app/service/PrintScriptService.kt:82-94 | Format uploads exactly when the GET went through, the store held a non-empty snippet and the formatter returned. What it uploads is then the staged file after formatting for version "1.1". The source ignores the formatter's return value and reads the staged file back (lines 87, 89, 108). |
| `Service.FormattedStore` | src/main/kotlin/app/service/PrintScriptService.kt:82-94 | Format leaves every other id untouched and adds or removes no id. The store changes only when a non-empty snippet was fetched, the formatter returned and the upload was delivered. The new content is then the staged file as the formatter left it for version "1.1", read back from disk rather than taken from the formatter's return value. |
| `Service.MissingSnippetReportsNothing` | src/main/kotlin/app/service/PrintScriptService.kt:30-68 | For an id the store does not hold, or holds as an empty snippet, whether or not the GET goes through, validate gives `(null, null)` and execute gives `(null, null)`. |
| `Service.PrintScriptService.constructor` | src/main/kotlin/app/service/PrintScriptService.kt:26-28 | The service keeps the asset store it was given. |
| `Service.PrintScriptService.FormatSnippet` | src/main/kotlin/app/service/PrintScriptService.kt:82-94 | If fetch or format raises, no upload is made at all. If both return, exactly one upload is made, under the same id, of the formatted content. The store afterwards is `FormattedStore` of the store before. No `Exception` escapes. |

## Left out

- The toolchain (`ValidateLogic`, `Runner`, `AnalyzeLogic`, `FormatLogic` and the default providers) is not part of this model. It appears only as function parameters that may return or raise.
- The asset store's HTTP client (WebClient, the `test-container` container, `.block()`) is not modelled. The store is a map. Whether the GET went through is the `reachable` parameter, and whether the upload did is the `delivered` parameter. `getSnippet` (`GetResponse`) answers the stored bytes only when the GET went through and the stored snippet is non-empty. An empty body makes `.block()` return null, `!!` then raises, and the catch answers 500 with no body (AssetService.kt:54, 64-66), as it does for every other failure. So `getSnippet` never raises. Of `saveSnippet`'s response only whether the upload was delivered is modelled (`SaveSnippet`'s `ok`), not its status code or body text. `formatSnippet` ignores that response.
- Service.PrintScriptService.FormatSnippet: fetches through the real `getSnippet`, which never raises, so a store that throws on GET (as the tests mock it) is not among its paths. Validate, execute and lint take any store answer, a thrown one included.
- `java.lang.Error` throwables (for example `StackOverflowError` or `NotImplementedError` from the toolchain) are not caught by the service's `catch (e: Exception)` and would propagate. `Attempt.Thrown` stands only for `Exception`, so every "never raises" or "no exception escapes" statement here is about `Exception`.
- Service.PrintScriptService.FormatSnippet: staging (`genFile`, `genMultiPartFile`: temp files, `transferTo`, content-type probing) is modelled as passing the bytes through unchanged and never raising. So an I/O exception during staging is not among its failure paths. Neither is the `IllegalArgumentException` that `Files.createTempFile` raises for every snippet id containing a path separator such as "a/b": the temp-file prefix is the fetched file's name, which is the id (PrintScriptService.kt:102, AssetService.kt:57). For such ids the source never uploads, while the model does.
- Service.LintSnippet: the rules file is staged by the same `genFile`, modelled the same way. For a config id containing a path separator, `Files.createTempFile` raises and the source returns an empty list, while the model returns the analyser's diagnostics (PrintScriptService.kt:73, 102).
- Logging, `println` and the logged messages are left out (I/O).
- `ValidationResult`'s tree type and the interpreter's value type are type parameters. `toString` is the parameter `show`.
- `RunnerInputProv.index` is a Kotlin `Int`. It never exceeds the list's size, so it cannot wrap, and the model uses unbounded integers.
- The controller, health checks, the configuration reader and the request DTOs are HTTP, I/O or library plumbing and are not modelled. Among them are `executeSnippetTest`, `genConfig` and `toJsonFile`, which the tests call but no main code defines.
- The code has no concurrency and no locking, and neither has the model.

=== FILE: asset_service.dfy ===
/** The remote asset store, seen only through the get and put the service uses. All snippets
    live in one container, so the store is a map from snippet id to bytes. */
module Asset {
  import opened Exceptions

  type Bytes = seq<bv8>

  /** What `getSnippet` answers: the stored bytes when the remote GET goes through (`reachable`)
      and yields a non-empty body. An empty body makes `.block()` return null, which `!!` rejects;
      that and every other failure of the remote call, a missing snippet among them, is absorbed
      into a response without a body, so `getSnippet` itself never raises. */
  function GetResponse(snippets: map<string, Bytes>, snippetId: string, reachable: bool): (body: Option<Bytes>)
    ensures body.Some? <==> reachable && snippetId in snippets && |snippets[snippetId]| > 0
    ensures body.Some? ==> body.value == snippets[snippetId]
  {
    if reachable && snippetId in snippets && |snippets[snippetId]| > 0 then Some(snippets[snippetId]) else None
  }

  /** Reading back after a save: a non-empty snippet saved under `snippetId` is what a
      successful GET then answers for it; an empty one reads back as no body; every other id
      reads as before. */
  lemma GetAfterSave(snippets: map<string, Bytes>, snippetId: string, bytes: Bytes, other: string, reachable: bool)
    ensures |bytes| > 0 ==> GetResponse(snippets[snippetId := bytes], snippetId, true) == Some(bytes)
    ensures bytes == [] ==> GetResponse(snippets[snippetId := bytes], snippetId, reachable) == None
    ensures other != snippetId ==>
      GetResponse(snippets[snippetId := bytes], other, reachable) == GetResponse(snippets, other, reachable)
  {
  }

  class AssetService {
    var snippets: map<string, Bytes>
    /** Every upload attempted through `saveSnippet`, in call order, delivered or not. */
    ghost var uploads: seq<(string, Bytes)>

    constructor (snippets: map<string, Bytes>)
      ensures this.snippets == snippets && uploads == []
    {
      this.snippets := snippets;
      uploads := [];
    }

    /** `reachable` is whether the remote GET went through; a stored empty snippet still gives no body. */
    method GetSnippet(snippetId: string, reachable: bool) returns (body: Option<Bytes>)
      ensures body == GetResponse(snippets, snippetId, reachable)
    {
      body := GetResponse(snippets, snippetId, reachable);
    }

    /** Uploads `bytes` under `snippetId`; they are stored when the upload reaches the store
        (`delivered`). A failed upload is logged and answered with status 500 instead of raising;
        `ok` tells a delivered upload from a failed one. */
    method SaveSnippet(snippetId: string, bytes: Bytes, delivered: bool) returns (ok: bool)
      modifies this
      ensures ok == delivered
      ensures uploads == old(uploads) + [(snippetId, bytes)]
      ensures delivered ==> snippets == old(snippets)[snippetId := bytes]
      ensures !delivered ==> snippets == old(snippets)
    {
      if delivered {
        snippets := snippets[snippetId := bytes];
      }
      uploads := uploads + [(snippetId, bytes)];
      ok := delivered;
    }
  }
}

=== FILE: exceptions.dfy ===
/** Values for code that may return nothing (Kotlin's nullable types) or may throw. */
module Exceptions {

  /** A nullable value: `None` stands for Kotlin's `null`. */
  datatype Option<+T> = None | Some(value: T)

  /** The outcome of a call that may throw an exception: the value it returned, or
      the `message` of the exception it raised (on the JVM that message may be null). */
  datatype Attempt<+T> = Returned(value: T) | Thrown(message: Option<string>)

  /** Runs `next` on the value of `first`, as two statements of one `try` block do:
      an exception in the first statement skips the second and is the block's exception. */
  function Then<T, U>(first: Attempt<T>, next: T -> Attempt<U>): (r: Attempt<U>)
  {
    match first
    case Returned(v) => next(v)
    case Thrown(m) => Thrown(m)
  }
}

=== FILE: print_script_service.dfy ===
/** The snippet service: fetches a snippet from the asset store, drives one toolchain
    operation over it and turns the toolchain's outcome, or any exception, into a result. */
module Service {
  import opened Exceptions
  import opened Asset

  /** The version lint and format hand to the toolchain, whatever the snippet's own version. */
  const PinnedVersion: string := "1.1"

  /** Result of validate: the toolchain's syntax tree, or the error message. */
  datatype ValidationResult<A> = ValidationResult(ast: Option<A>, error: Option<string>)

  /** Result of execute: the interpreter's value as text, or the error message. */
  datatype ExecuteResult = ExecuteResult(output: Option<string>, error: Option<string>)

  /** What the interpreter reports; `OtherResult` stands for any result of neither known kind. */
  datatype InterpreterResult<V> =
    | InterpreterSuccess(originalValue: V)
    | InterpreterFailure(errorMessage: string)
    | OtherResult

  /** The body of the store's response, raising when there is none. Kotlin's `!!` raises a
      NullPointerException that carries no message. */
  function FetchMultipartFile(response: Attempt<Option<Bytes>>): (r: Attempt<Bytes>)
    ensures r.Returned? <==> response.Returned? && response.value.Some?
    ensures r.Returned? ==> r.value == response.value.value
    ensures response.Thrown? ==> r == Thrown(response.message)
    ensures response == Returned(None) ==> r == Thrown(None)
  {
    match response
    case Thrown(m) => Thrown(m)
    case Returned(body) =>
      match body
      case Some(b) => Returned(b)
      case None => Thrown(None)
  }

  /** Fetch then validate, inside one `try` block. */
  function ValidateAttempt<A>(version: string, response: Attempt<Option<Bytes>>,
                              validate: (string, Bytes) -> Attempt<A>): (a: Attempt<A>)
  {
    Then(FetchMultipartFile(response), (snippet: Bytes) => validate(version, snippet))
  }

  /** `response` is what the store answered for the snippet id; `validate` is the toolchain's validator. */
  function ValidateSnippet<A>(version: string, response: Attempt<Option<Bytes>>,
                              validate: (string, Bytes) -> Attempt<A>): (r: ValidationResult<A>)
    ensures !(r.ast.Some? && r.error.Some?)
    ensures response.Thrown? ==> r == ValidationResult(None, response.message)
    ensures response == Returned(None) ==> r == ValidationResult(None, None)
    ensures response.Returned? && response.value.Some? ==>
      match validate(version, response.value.value)
      case Returned(ast) => r == ValidationResult(Some(ast), None)
      case Thrown(m) => r == ValidationResult(None, m)
  {
    match ValidateAttempt(version, response, validate)
    case Returned(ast) => ValidationResult(Some(ast), None)
    case Thrown(m) => ValidationResult(None, m)
  }

  /** Fetch then run the interpreter, inside one `try` block. */
  function RunAttempt<V>(version: string, response: Attempt<Option<Bytes>>,
                         run: (Bytes, string) -> Attempt<InterpreterResult<V>>): (a: Attempt<InterpreterResult<V>>)
  {
    Then(FetchMultipartFile(response), (snippet: Bytes) => run(snippet, version))
  }

  /** `run` is the interpreter, `show` the value's `toString`. */
  function ExecuteSnippet<V>(version: string, response: Attempt<Option<Bytes>>,
                             run: (Bytes, string) -> Attempt<InterpreterResult<V>>,
                             show: V -> string): (r: ExecuteResult)
    ensures !(r.output.Some? && r.error.Some?)
    ensures response.Thrown? ==> r == ExecuteResult(None, response.message)
    ensures response == Returned(None) ==> r == ExecuteResult(None, None)
    ensures response.Returned? && response.value.Some? ==>
      match run(response.value.value, version)
      case Returned(InterpreterSuccess(v)) => r == ExecuteResult(Some(show(v)), None)
      case Returned(InterpreterFailure(m)) => r == ExecuteResult(None, Some(m))
      case Returned(OtherResult) => r == ExecuteResult(None, None)
      case Thrown(m) => r == ExecuteResult(None, m)
  {
    match RunAttempt(version, response, run)
    case Returned(InterpreterSuccess(v)) => ExecuteResult(Some(show(v)), None)
    case Returned(InterpreterFailure(m)) => ExecuteResult(None, Some(m))
    case Returned(OtherResult) => ExecuteResult(None, None)
    case Thrown(m) => ExecuteResult(None, m)
  }

  /** Execute reports an output exactly when the interpreter succeeded, an error exactly when the
      interpreter failed or an exception with a message was raised, and neither exactly for an
      unknown interpreter result or an exception without a message. */
  lemma ExecuteFieldsCharacterised<V>(version: string, response: Attempt<Option<Bytes>>,
                                      run: (Bytes, string) -> Attempt<InterpreterResult<V>>,
                                      show: V -> string)
    ensures var a := RunAttempt(version, response, run);
            var r := ExecuteSnippet(version, response, run, show);
            && (r.output.Some? <==> a.Returned? && a.value.InterpreterSuccess?)
            && (r.error.Some? <==> (a.Returned? && a.value.InterpreterFailure?) || (a.Thrown? && a.message.Some?))
            && (r.output.None? && r.error.None? <==> a == Returned(OtherResult) || a == Thrown(None))
  {
  }

  /** Fetch the snippet, fetch the rules, then analyse with the pinned version, inside one `try` block. */
  function LintAttempt(snippetResponse: Attempt<Option<Bytes>>, configResponse: Attempt<Option<Bytes>>,
                       analyse: (string, Bytes, Bytes) -> Attempt<seq<string>>): (a: Attempt<seq<string>>)
  {
    Then(FetchMultipartFile(snippetResponse), (snippet: Bytes) =>
      Then(FetchMultipartFile(configResponse), (config: Bytes) =>
        analyse(PinnedVersion, snippet, config)))
  }

  /** Lint never raises: any exception, from either fetch or from the analysis, gives no diagnostics. */
  function LintSnippet(snippetResponse: Attempt<Option<Bytes>>, configResponse: Attempt<Option<Bytes>>,
                       analyse: (string, Bytes, Bytes) -> Attempt<seq<string>>): (r: seq<string>)
    ensures !(snippetResponse.Returned? && snippetResponse.value.Some?) ==> r == []
    ensures !(configResponse.Returned? && configResponse.value.Some?) ==> r == []
    ensures snippetResponse.Returned? && snippetResponse.value.Some? &&
            configResponse.Returned? && configResponse.value.Some? ==>
      match analyse(PinnedVersion, snippetResponse.value.value, configResponse.value.value)
      case Returned(diagnostics) => r == diagnostics
      case Thrown(_) => r == []
  {
    match LintAttempt(snippetResponse, configResponse, analyse)
    case Returned(diagnostics) => diagnostics
    case Thrown(_) => []
  }

  /** The bytes `formatSnippet` uploads under `snippetId`, if it uploads at all: only when the
      store answered with the snippet and the formatter returned. The upload is the staged file
      after formatting, which `format` stands for. */
  function FormatUpload<C>(snippets: map<string, Bytes>, snippetId: string, config: C,
                           format: (string, Bytes, C) -> Attempt<Bytes>, reachable: bool): (upload: Option<Bytes>)
    ensures upload.Some? <==>
      && reachable && snippetId in snippets && |snippets[snippetId]| > 0
      && format(PinnedVersion, snippets[snippetId], config).Returned?
    ensures upload.Some? ==> upload.value == format(PinnedVersion, snippets[snippetId], config).value
  {
    match FetchMultipartFile(Returned(GetResponse(snippets, snippetId, reachable)))
    case Thrown(_) => None
    case Returned(snippet) =>
      match format(PinnedVersion, snippet, config)
      case Thrown(_) => None
      case Returned(formatted) => Some(formatted)
  }

  /** The store after `formatSnippet`: the formatted snippet is written back under its own id only
      when a non-empty snippet was fetched, the formatter returned and the upload was delivered. */
  function FormattedStore<C>(snippets: map<string, Bytes>, snippetId: string, config: C,
                             format: (string, Bytes, C) -> Attempt<Bytes>, reachable: bool,
                             delivered: bool): (after: map<string, Bytes>)
    ensures after.Keys == snippets.Keys
    ensures forall id :: id in snippets && id != snippetId ==> after[id] == snippets[id]
    ensures after != snippets ==>
      && reachable
      && snippetId in snippets
      && |snippets[snippetId]| > 0
      && delivered
      && format(PinnedVersion, snippets[snippetId], config) == Returned(after[snippetId])
    ensures reachable && snippetId in snippets && |snippets[snippetId]| > 0 && delivered && format(PinnedVersion, snippets[snippetId], config).Returned? ==>
      after[snippetId] == format(PinnedVersion, snippets[snippetId], config).value
  {
    match FormatUpload(snippets, snippetId, config, format, reachable)
    case None => snippets
    case Some(formatted) => if delivered then snippets[snippetId := formatted] else snippets
  }

  /** A snippet the store does not hold, or holds empty, makes validate and execute report neither
      a value nor an error, because the exception raised for the missing body has no message. */
  lemma MissingSnippetReportsNothing<A, V>(snippets: map<string, Bytes>, snippetId: string, version: string,
                                           validate: (string, Bytes) -> Attempt<A>,
                                           run: (Bytes, string) -> Attempt<InterpreterResult<V>>,
                                           show: V -> string)
    requires snippetId !in snippets || snippets[snippetId] == []
    ensures forall reachable: bool ::
      ValidateSnippet(version, Returned(GetResponse(snippets, snippetId, reachable)), validate) == ValidationResult(None, None)
    ensures forall reachable: bool ::
      ExecuteSnippet(version, Returned(GetResponse(snippets, snippetId, reachable)), run, show) == ExecuteResult(None, None)
  {
  }

  class PrintScriptService {
    const assetService: AssetService

    constructor (assetService: AssetService)
      ensures this.assetService == assetService
    {
      this.assetService := assetService;
    }

    /** Fetch, stage, format, then save under the same id. `format` is the formatter run over
        the staged file and yields the file's new content; `reachable` is whether the store's GET
        went through and `delivered` whether the upload reached the store. Every exception is
        logged and swallowed. */
    method FormatSnippet<C>(snippetId: string, config: C,
                            format: (string, Bytes, C) -> Attempt<Bytes>, reachable: bool, delivered: bool)
      modifies assetService
      ensures FormatUpload(old(assetService.snippets), snippetId, config, format, reachable).None? ==>
        assetService.uploads == old(assetService.uploads)
      ensures FormatUpload(old(assetService.snippets), snippetId, config, format, reachable).Some? ==>
        assetService.uploads == old(assetService.uploads) +
          [(snippetId, FormatUpload(old(assetService.snippets), snippetId, config, format, reachable).value)]
      ensures assetService.snippets ==
        FormattedStore(old(assetService.snippets), snippetId, config, format, reachable, delivered)
    {
      var body := assetService.GetSnippet(snippetId, reachable);
      var fetched := FetchMultipartFile(Returned(body));
      match fetched {
        case Thrown(_) =>
        case Returned(snippet) =>
          var formatted := format(PinnedVersion, snippet, config);
          match formatted {
            case Thrown(_) =>
            case Returned(content) =>
              // The store's response is ignored, so a failed upload goes unnoticed.
              var _ := assetService.SaveSnippet(snippetId, content, delivered);
          }
      }
    }
  }
}

=== FILE: runner_input_prov.dfy ===
/** The scripted input supplier handed to the interpreter: a cursor over a fixed list of strings. */
module RunnerInput {

  /** What one `readInput` call yields: the string under the cursor, or the
      out-of-bounds failure the list access raises once the cursor is past the end. */
  datatype ReadResult = Read(value: string) | IndexOutOfBounds(index: int)

  /** One `readInput` call on a provider whose cursor is `index`: its result and the cursor
      afterwards. The list access fails before the increment, so a failed call leaves the cursor. */
  function Step(inputs: seq<string>, index: int): (next: (ReadResult, int))
  {
    if 0 <= index < |inputs| then (Read(inputs[index]), index + 1)
    else (IndexOutOfBounds(index), index)
  }

  /** The cursor of a freshly built provider after `calls` calls of `readInput`. */
  function CursorAfter(inputs: seq<string>, calls: nat): (index: int)
  {
    if calls == 0 then 0 else Step(inputs, CursorAfter(inputs, calls - 1)).1
  }

  /** The results of the first `calls` calls of `readInput` on a freshly built provider, in call order. */
  function ReadsOf(inputs: seq<string>, calls: nat): (rs: seq<ReadResult>)
    ensures |rs| == calls
  {
    if calls == 0 then []
    else ReadsOf(inputs, calls - 1) + [Step(inputs, CursorAfter(inputs, calls - 1)).0]
  }

  /** Every successful call moves the cursor by exactly one, and it never passes the end of the list. */
  lemma {:induction false} CursorBounded(inputs: seq<string>, calls: nat)
    ensures CursorAfter(inputs, calls) == if calls <= |inputs| then calls else |inputs|
    ensures 0 <= CursorAfter(inputs, calls) <= |inputs|
  {
    if calls > 0 {
      CursorBounded(inputs, calls - 1);
    }
  }

  /** The k-th call (from 0) returns exactly `inputs[k]`: inputs are consumed in order, none
      skipped or repeated; every call past the end fails at index `|inputs|`. */
  lemma {:induction false} ReadsInOrder(inputs: seq<string>, calls: nat)
    ensures forall k :: 0 <= k < calls && k < |inputs| ==> ReadsOf(inputs, calls)[k] == Read(inputs[k])
    ensures forall k :: |inputs| <= k < calls ==> ReadsOf(inputs, calls)[k] == IndexOutOfBounds(|inputs|)
  {
    if calls > 0 {
      ReadsInOrder(inputs, calls - 1);
      CursorBounded(inputs, calls - 1);
    }
  }

  class RunnerInputProv {
    const inputs: seq<string>
    var index: int
    /** The results of all `readInput` calls so far, in call order. */
    ghost var history: seq<ReadResult>

    ghost predicate Valid()
      reads this
    {
      && 0 <= index <= |inputs|
      && index == CursorAfter(inputs, |history|)
      && history == ReadsOf(inputs, |history|)
    }

    constructor (inputs: seq<string>)
      ensures Valid()
      ensures this.inputs == inputs && index == 0 && history == []
    {
      this.inputs := inputs;
      index := 0;
      history := [];
    }

    /** The `name` of the requested value plays no part: the result depends on the cursor and the list only. */
    method ReadInput(name: string) returns (r: ReadResult)
      requires Valid()
      modifies this
      ensures Valid()
      ensures history == old(history) + [r]
      ensures forall k :: 0 <= k < |history| && k < |inputs| ==> history[k] == Read(inputs[k])
      ensures old(index) < |inputs| ==> r == Read(inputs[old(index)]) && index == old(index) + 1
      ensures old(index) == |inputs| ==> r == IndexOutOfBounds(|inputs|) && index == old(index)
    {
      if index < |inputs| {
        r := Read(inputs[index]);
        index := index + 1;
      } else {
        r := IndexOutOfBounds(index);
      }
      history := history + [r];
      ReadsInOrder(inputs, |history|);
    }
  }

  /** A provider built over `["a", "b"]` hands "a" to the first request and "b" to the
      second; a third request fails at index 2. */
  method TwoScriptedInputs() returns (first: ReadResult, second: ReadResult, third: ReadResult)
    ensures first == Read("a") && second == Read("b") && third == IndexOutOfBounds(2)
  {
    var provider := new RunnerInputProv(["a", "b"]);
    first := provider.ReadInput("x");
    second := provider.ReadInput("y");
    third := provider.ReadInput("x");
  }
}

=== FILE: runner_output_prov.dfy ===
/** The captured output sink handed to the interpreter: an append-only list of messages. */
module RunnerOutput {

  class RunnerOutPutProv {
    var outPuts: seq<string>

    constructor ()
      ensures outPuts == []
    {
      outPuts := [];
    }

    method Output(message: string)
      modifies this
      ensures outPuts == old(outPuts) + [message]
      ensures |outPuts| == |old(outPuts)| + 1 && outPuts[..|old(outPuts)|] == old(outPuts)
    {
      outPuts := outPuts + [message];
    }
  }

  /** The sink's list after `messages` are emitted one `output` call at a time into a sink holding `outPuts`. */
  function AfterOutputs(outPuts: seq<string>, messages: seq<string>): (after: seq<string>)
    decreases |messages|
  {
    if messages == [] then outPuts
    else AfterOutputs(outPuts + [messages[0]], messages[1..])
  }

  /** After any sequence of `output` calls the sink holds the earlier entries unchanged,
      followed by every emitted message in emission order, duplicates kept. */
  lemma {:induction false} OutputsKeptInOrder(outPuts: seq<string>, messages: seq<string>)
    ensures AfterOutputs(outPuts, messages) == outPuts + messages
    decreases |messages|
  {
    if messages != [] {
      OutputsKeptInOrder(outPuts + [messages[0]], messages[1..]);
      assert outPuts + [messages[0]] + messages[1..] == outPuts + messages;
    }
  }

  /** Emits `messages` into `sink` one `output` call at a time, as the interpreter does while it
      runs: the sink ends up holding its earlier entries followed by the messages in order. */
  method OutputAll(sink: RunnerOutPutProv, messages: seq<string>)
    modifies sink
    ensures sink.outPuts == AfterOutputs(old(sink.outPuts), messages)
    ensures sink.outPuts == old(sink.outPuts) + messages
  {
    var i := 0;
    while i < |messages|
      invariant 0 <= i <= |messages|
      invariant sink.outPuts == old(sink.outPuts) + messages[..i]
    {
      sink.Output(messages[i]);
      assert messages[..i + 1] == messages[..i] + [messages[i]];
      i := i + 1;
    }
    assert messages[..i] == messages;
    OutputsKeptInOrder(old(sink.outPuts), messages);
  }
}
